=== FILE: README.md ===
# waybackrobots in Dafny

`waybackrobots.py` takes a host name. It asks the Wayback Machine's CDX index for the
status-200 captures of that host's `robots.txt`, with adjacent identical ones merged, then
fetches each capture. From each
one it pulls the paths of the `Disallow:` directives, and it writes the union of those
paths to `<host>-robots.txt`, one per line.

This project models the logic around the network calls:

- `robots(host)` drops the header row of the index response and maps a failed request or
  an empty response to no rows (`WaybackRobots.ListSnapshots`).
- `getpaths(snapshot)` unpacks the row as a pair (`ToSnapshot`, `ParseSnapshots`). It then
  applies the case-sensitive `'Disallow:' in text` guard (`Text.Contains`). After that it runs
  `re.findall(r'Disallow:\s*(.+)', text, re.IGNORECASE)`, modelled in module `Pattern`:
  - the predicates `PythonMatch` and `IsFindAll` give a declarative description of what
    Python's backtracking engine reports;
  - the functions `MatchAt`, `ScanMatches` and `FindAll` compute those matches.
- The main loop folds every capture's paths into one set (`Accumulate`, `Run`). The output
  file is written with `'\n'.join(unique_paths)` (`Enumerate`, `FileContents`).

Each network response is a parameter:

- the index response is an `Option<seq<seq<string>>>`;
- the snapshot fetch is a function `Snapshot -> Option<string>`.

In both, `None` stands for a `RequestException`, which the program logs and turns into an
empty result.

Files:

- `wrappers.dfy`: `Option` and `Result`.
- `text.dfy`: Python's `\s` character class, ASCII case folding, substring search, `join`
  and `split`.
- `pattern.dfy`: the regular expression and `findall`.
- `robots.dfy`: `robots`, `getpaths` and the main loop.
- `scenarios.dfy`: concrete robots.txt texts and whole runs, worked through the model.

Behaviours of the code worth knowing, each proved or worked through in the model:

- **Leading whitespace.** `\s*` is greedy, so `Disallow:   /secret  ` yields `"/secret  "`.
  A path starts with whitespace only when nothing but whitespace follows the keyword up
  to the end of the text. The path is then a single whitespace character, followed only
  by newlines (`Pattern.GroupStartsWithSpace`).
- **No trimming at the end.** `.+` runs to the end of the line, so trailing blanks and a
  `\r` before the newline stay in the path (`Pattern.GroupRunsToLineEnd`,
  `Scenarios.PaddedExtract`).
- **Case of the keyword.** Only the regular expression ignores case. The guard in front
  of it is case-sensitive, so a robots.txt that spells the keyword only as `disallow:`
  yields nothing (`GuardSkipsOnlyCaseVariants`, `Scenarios.LowerOnlyExtract`).
- **Empty directives.** After an empty `Disallow:` line, `\s*` runs across the newline and
  any following whitespace. The path therefore starts at the first non-whitespace
  character after the keyword when there is one, possibly on a later line:
  `"Disallow:\n  /x"` yields `"/x"` (`Scenarios.EmptyDirectiveExtract`,
  `Scenarios.IndentedNextExtract`). When only whitespace follows, Leading whitespace above
  applies.
- **Malformed rows.** A row that is not a pair makes the unpacking raise an uncaught
  `ValueError`, and nothing is written (`Outcome.MalformedSnapshot`).

## Model

| member | source | states |
|---|---|---|
| WaybackRobots.ListSnapshots | waybackrobots.py:17-22 | a failed request or an empty response gives no rows; otherwise the rows are the response minus its first row, in order |
| WaybackRobots.ListSnapshotsDropsHeader | waybackrobots.py:20-22 | listing a header row followed by any rows gives exactly those rows back |
| WaybackRobots.ToSnapshot | waybackrobots.py:28 | a row unpacks into a snapshot exactly when it holds two strings |
| WaybackRobots.ToSnapshotRoundTrip | waybackrobots.py:28 | a snapshot written as a two-element row unpacks to itself |
| WaybackRobots.ParseSnapshots | waybackrobots.py:60-62 | the loop fails exactly when some row is not a pair, and reports the first such row; otherwise each row unpacks to the snapshot at its position |
| Text.IsSpace | waybackrobots.py:37 | `\s` for a str pattern is Python 3's whitespace set: ASCII 9 to 13 and 28 to 32, U+0085, U+00A0, U+1680, U+2000 to U+200A, U+2028, U+2029, U+202F, U+205F and U+3000 |
| Text.OccursFoldedAt | waybackrobots.py:37 | `re.IGNORECASE` on a literal: each character matches when both agree after ASCII lower-casing, and no other folding applies |
| Pattern.KeywordAt | waybackrobots.py:37 | the keyword `Disallow:` occurs at the position with ASCII case ignored |
| Text.ContainsFrom | waybackrobots.py:35 | `w in t` holds exactly when `w` occurs character for character at some index |
| Pattern.SpaceRunEnd | waybackrobots.py:37 | greedy `\s*`: the run from `i` is all whitespace and no longer run is |
| Pattern.LineEnd | waybackrobots.py:37 | greedy `.+`: the run from `i` holds no newline and no longer run does |
| Pattern.GroupStart | waybackrobots.py:37 | backtracking of `\s*`: the chosen group start lies in the whitespace run and is not a newline, and every start that allows a match is at most the chosen one |
| Pattern.MatchAt | waybackrobots.py:37 | the match the engine reports at a position, with the largest group start and then the longest group, or none exactly when no match starts there |
| Pattern.ScanMatches | waybackrobots.py:37 | the matches satisfy the declarative definition `IsFindAll`: leftmost first, each search resuming at the previous match's end, and no match after the last |
| Pattern.PythonMatchUnique | waybackrobots.py:37 | at most one match can be the engine's at a given position |
| Pattern.FindAllUnique | waybackrobots.py:37 | `IsFindAll` fixes a single sequence of matches |
| Pattern.FindAllInOrder | waybackrobots.py:37 | findall's matches are engine matches, at or after the search start, strictly ordered and non-overlapping |
| Pattern.FirstMatchIsLeftmost | waybackrobots.py:37 | no match starts before findall's first one, and with no matches at all none starts anywhere after the start |
| Pattern.GroupRunsToLineEnd | waybackrobots.py:37 | a captured path always runs to the end of its line or of the text |
| Pattern.GroupStartsWithSpace | waybackrobots.py:37 | a path that starts with whitespace is that one character, with only newlines after it |
| Pattern.FindAll | waybackrobots.py:37 | every path findall returns is non-empty and holds no newline |
| Pattern.FindAllIsCaptures | waybackrobots.py:37 | findall returns exactly the groups of the matches `IsFindAll` fixes |
| WaybackRobots.ExtractPaths | waybackrobots.py:35-42 | no paths without the exact text `Disallow:`, otherwise findall's paths; every path is non-empty and newline-free |
| WaybackRobots.GuardSkipsOnlyCaseVariants | waybackrobots.py:35-37 | the guard changes the result only for texts that hold a case variant of the keyword but not `Disallow:` itself |
| WaybackRobots.ExtractPathsAreGroups | waybackrobots.py:35-42 | once the guard passes, the paths are the groups of the matches `IsFindAll` fixes |
| WaybackRobots.GetPaths | waybackrobots.py:30-45 | a failed fetch gives no paths; a successful one gives the guarded findall of the fetched text (`ExtractPaths`); every path is non-empty and newline-free |
| WaybackRobots.Accumulate | waybackrobots.py:59-64 | a path is in the accumulated set exactly when some capture's list holds it |
| WaybackRobots.EmptyListsAddNothing | waybackrobots.py:62-64 | a capture that yields no paths leaves the set unchanged, wherever it comes in the loop |
| WaybackRobots.Run | waybackrobots.py:53-64 | no snapshots ends the run early; a row that is not a pair stops it at the first such row; otherwise the saved set is the union of every capture's paths, each non-empty and newline-free |
| WaybackRobots.Enumerate | waybackrobots.py:67 | iterating over the set visits every member exactly once |
| WaybackRobots.FileContents | waybackrobots.py:66-67 | an empty set writes the empty string; otherwise splitting the written text at `\n` gives the iteration order, hence the set |
| WaybackRobots.SavedFileReadsBack | waybackrobots.py:59-67 | splitting the text written to the file at `\n` gives back exactly the set the run accumulated |
| Text.Join | waybackrobots.py:67 | `'\n'.join`: no pieces give the empty string, one piece gives itself, and the first of several pieces is followed by one separator |
| Text.SplitJoin | waybackrobots.py:67 | splitting the newline join of newline-free pieces gives the pieces back |
| Text.JoinSplit | waybackrobots.py:67 | joining the pieces of a split gives the text back |
| Scenarios.MixedCaseExtract | waybackrobots.py:35-37 | `DISALLOW:` contributes its path once the exact `Disallow:` occurs elsewhere in the text |
| Scenarios.LowerOnlyExtract | waybackrobots.py:35-42 | a text with only `disallow:` yields no paths, although findall alone would yield one |
| Scenarios.PaddedExtract | waybackrobots.py:37 | leading blanks are skipped, while trailing blanks and a carriage return stay in the path |
| Scenarios.EmptyDirectiveExtract | waybackrobots.py:37 | an empty directive captures the next non-blank line |
| Scenarios.IndentedNextExtract | waybackrobots.py:37 | after an empty directive the path skips the newline and the next line's indentation |
| Scenarios.BlankLastExtract | waybackrobots.py:37 | a directive followed by one blank captures that blank |
| Scenarios.ThreeSnapshotsRun | waybackrobots.py:53-64 | a failed fetch adds nothing, and a path found in two captures is saved once |
| Scenarios.HeaderOnlyRun | waybackrobots.py:17-22 | an index holding only its header row, or a failed index request, leaves nothing to process |
| Scenarios.ShortRowRun | waybackrobots.py:28 | a one-field row stops the run at that row, after the rows before it |

## Left out

- HTTP requests, `raise_for_status` and the handling of `RequestException`: these are the `Option` parameters of `ListSnapshots`, `GetPaths` and `Run`, with `None` for any request that raised.
- JSON decoding of the index response: the model receives the rows already decoded as lists of strings. A response that decodes to something other than a list of lists of strings is not modelled.
- How `requests` decodes the response bytes into `response.text`: the model receives the text.
- Building the two archive URLs, logging, `time.sleep`, and the command-line argument check with its exit status: none of these affects which paths are found.
- Opening and writing `<host>-robots.txt`: `open` runs only after every fetch, and it raises when the file name is not valid (a host containing `/`) or the directory is not writable. Then nothing is saved. `Outcome.Saved` is the set the program tries to write, and the model does not promise that the write succeeds.
- Pattern.MatchAt: `re.IGNORECASE` is modelled as ASCII case folding. Python also lets `İ` (U+0130) and `ı` (U+0131) match `i`, and `ſ` (U+017F) match `s`; those three characters are not modelled.
- Text.IsSpace: the whitespace set is that of current Python 3 versions. Versions whose Unicode database counts U+180E as whitespace are not modelled.
- WaybackRobots.Enumerate: Python's set iteration order depends on string hashing, which is randomised per process. The model proves only that each member is visited exactly once, in some order.
- WaybackRobots.FileContents: the file is opened in text mode, so on a platform whose line separator is not `\n` (Windows writes `\r\n`) the bytes on disk differ from the modelled text. The round trip is proved for a split at `\n` only. A reader that also ends lines at `\r`, such as Python's default newline translation, can read different lines, because paths may hold `\r` (`"/a \r"`, or `"/a\rDisallow: /b"` from a text with bare `\r` line ends).

=== FILE: pattern.dfy ===
/** Python's `re.findall(r'Disallow:\s*(.+)', text, re.IGNORECASE)`, the one regular
    expression the program uses, written out as a scanner; beside it, the declarative
    meaning of a match, against which the scanner is proved correct. */
module Pattern {
  import opened Wrappers
  import opened Text

  /** The literal part of the pattern; IGNORECASE makes it match in any ASCII case. */
  const Keyword: string := "Disallow:"

  /** One match of the pattern: the match is `t[start..end]` and its group is
      `t[capStart..end]` (the group always runs to the end of the match). */
  datatype Match = Match(start: nat, capStart: nat, end: nat)

  /** The keyword, case ignored, occurs at index `p`. */
  predicate KeywordAt(t: string, p: nat)
  {
    OccursFoldedAt(t, Keyword, p)
  }

  // ---------------------------------------------------------------------------
  // What the pattern means

  /** Every character of `t[lo..hi]` is whitespace (what `\s*` can consume). */
  predicate AllSpace(t: string, lo: nat, hi: nat)
    requires hi <= |t|
  {
    forall x :: lo <= x < hi ==> IsSpace(t[x])
  }

  /** No character of `t[lo..hi]` is a newline (what `.` can consume without DOTALL). */
  predicate NoNewline(t: string, lo: nat, hi: nat)
    requires hi <= |t|
  {
    forall x :: lo <= x < hi ==> t[x] != '\n'
  }

  /** The pattern matches `t[p..e]` with its group at `t[k..e]`: the keyword at `p`,
      whitespace up to `k` (`\s*`), and one or more characters other than a newline
      up to `e` (`.+`, without DOTALL). Every way the pattern can match at `p` is
      one such pair `(k, e)`. */
  ghost predicate RegexMatch(t: string, p: nat, k: nat, e: nat)
  {
    && KeywordAt(t, p)
    && p + |Keyword| <= k < e <= |t|
    && AllSpace(t, p + |Keyword|, k)
    && NoNewline(t, k, e)
  }

  /** The match a backtracking engine reports at `p`: both `\s*` and `.+` are greedy,
      so of all the ways to match it is the one with the latest group start, and for
      that start the latest end. */
  ghost predicate PythonMatch(t: string, p: nat, m: Match)
  {
    && m.start == p
    && RegexMatch(t, p, m.capStart, m.end)
    && forall k: nat, e: nat :: RegexMatch(t, p, k, e) ==> k < m.capStart || (k == m.capStart && e <= m.end)
  }

  /** The pattern cannot match at `p` in any way. */
  ghost predicate NoMatchAt(t: string, p: nat)
  {
    forall k: nat, e: nat :: !RegexMatch(t, p, k, e)
  }

  /** No match starts at any index in `[lo, hi)`. */
  ghost predicate NoMatchBetween(t: string, lo: nat, hi: nat)
  {
    forall q: nat :: lo <= q < hi ==> NoMatchAt(t, q)
  }

  /** No match starts at any index from `lo` on. */
  ghost predicate NoMatchFrom(t: string, lo: nat)
  {
    forall q: nat :: lo <= q ==> NoMatchAt(t, q)
  }

  /** `ms` is what `findall` reports when searching from `p`: the leftmost match at or
      after `p`, then the leftmost match at or after where that one ends, and so on
      until no match is left. */
  ghost predicate IsFindAll(t: string, p: nat, ms: seq<Match>)
    decreases |ms|
  {
    if |ms| == 0 then NoMatchFrom(t, p)
    else
      && p <= ms[0].start
      && NoMatchBetween(t, p, ms[0].start)
      && PythonMatch(t, ms[0].start, ms[0])
      && IsFindAll(t, ms[0].end, ms[1..])
  }

  // ---------------------------------------------------------------------------
  // The scanner

  /** Where the greedy `\s*` starting at `i` stops: the first index at or after `i`
      that holds no whitespace, or the end of the text. */
  function SpaceRunEnd(t: string, i: nat): (j: nat)
    requires i <= |t|
    ensures i <= j <= |t|
    ensures AllSpace(t, i, j)
    ensures forall k: nat :: k <= |t| && AllSpace(t, i, k) ==> k <= j
    decreases |t| - i
  {
    if i == |t| || !IsSpace(t[i]) then i
    else
      assert forall k: nat :: i < k <= |t| && AllSpace(t, i, k) ==> AllSpace(t, i + 1, k);
      SpaceRunEnd(t, i + 1)
  }

  /** Where the greedy `.+` starting at `i` stops: the first newline at or after `i`,
      or the end of the text. */
  function LineEnd(t: string, i: nat): (j: nat)
    requires i <= |t|
    ensures i <= j <= |t|
    ensures NoNewline(t, i, j)
    ensures forall k: nat :: k <= |t| && NoNewline(t, i, k) ==> k <= j
    decreases |t| - i
  {
    if i == |t| || t[i] == '\n' then i
    else
      assert forall k: nat :: i < k <= |t| && NoNewline(t, i, k) ==> NoNewline(t, i + 1, k);
      LineEnd(t, i + 1)
  }

  /** Backtracking of `\s*` that ran from `lo` to `q`: give back one character at a
      time until `.+` can take at least one character, that is, until the index holds
      a character other than a newline. None when even the empty `\s*` fails. */
  function GroupStart(t: string, lo: nat, q: nat): (r: Option<nat>)
    requires lo <= q <= |t|
    ensures r.Some? ==> lo <= r.value <= q && r.value < |t| && t[r.value] != '\n'
    ensures forall k: nat, e: nat :: lo <= k <= q && k < e <= |t| && NoNewline(t, k, e) ==> r.Some? && k <= r.value
    decreases q - lo
  {
    if q < |t| && t[q] != '\n' then Some(q)
    else if q == lo then None
    else
      assert forall k: nat, e: nat :: k < e <= |t| && NoNewline(t, k, e) ==> t[k] != '\n';
      GroupStart(t, lo, q - 1)
  }

  /** The engine's attempt to match at index `p`. */
  function MatchAt(t: string, p: nat): (r: Option<Match>)
    ensures r.Some? ==> PythonMatch(t, p, r.value)
    ensures r.None? ==> NoMatchAt(t, p)
  {
    if !KeywordAt(t, p) then None
    else
      var q := SpaceRunEnd(t, p + |Keyword|);
      match GroupStart(t, p + |Keyword|, q)
      case None =>
        NoGroupNoMatch(t, p);
        None
      case Some(k) =>
        GroupGivesMatch(t, p, k);
        Some(Match(p, k, LineEnd(t, k)))
  }

  /** `findall`'s search loop from index `p`: try each index in turn; after a match,
      resume where it ended. */
  function ScanMatches(t: string, p: nat): (ms: seq<Match>)
    requires p <= |t|
    ensures IsFindAll(t, p, ms)
    decreases |t| - p
  {
    if p == |t| then
      NoMatchPastEnd(t, p);
      []
    else match MatchAt(t, p)
      case None =>
        var rest := ScanMatches(t, p + 1);
        FindAllSkip(t, p, rest);
        rest
      case Some(m) =>
        var rest := ScanMatches(t, m.end);
        FindAllTake(t, p, m, rest);
        [m] + rest
  }

  // ---------------------------------------------------------------------------
  // Proofs that the scanner does what the pattern means

  /** A match needs the keyword and one more character, so none starts near the end. */
  lemma NoMatchPastEnd(t: string, p: nat)
    requires |t| <= p
    ensures NoMatchFrom(t, p)
  {
  }

  /** If backtracking finds no index for the group, the pattern cannot match at `p`. */
  lemma NoGroupNoMatch(t: string, p: nat)
    requires KeywordAt(t, p)
    requires GroupStart(t, p + |Keyword|, SpaceRunEnd(t, p + |Keyword|)).None?
    ensures NoMatchAt(t, p)
  {
    var q := SpaceRunEnd(t, p + |Keyword|);
    forall k: nat, e: nat ensures !RegexMatch(t, p, k, e) {
    }
  }

  /** The group start that backtracking finds yields the greedy match. */
  lemma GroupGivesMatch(t: string, p: nat, k: nat)
    requires KeywordAt(t, p)
    requires GroupStart(t, p + |Keyword|, SpaceRunEnd(t, p + |Keyword|)) == Some(k)
    ensures PythonMatch(t, p, Match(p, k, LineEnd(t, k)))
  {
    var q := SpaceRunEnd(t, p + |Keyword|);
    var e := LineEnd(t, k);
    assert RegexMatch(t, p, k, e);
    forall k': nat, e': nat | RegexMatch(t, p, k', e') ensures k' < k || (k' == k && e' <= e) {
    }
  }

  /** An index where no match starts is skipped by the search. */
  lemma FindAllSkip(t: string, p: nat, ms: seq<Match>)
    requires NoMatchAt(t, p)
    requires IsFindAll(t, p + 1, ms)
    ensures IsFindAll(t, p, ms)
  {
  }

  /** A match at `p` is reported, and the search resumes where it ends. */
  lemma FindAllTake(t: string, p: nat, m: Match, ms: seq<Match>)
    requires PythonMatch(t, p, m)
    requires IsFindAll(t, m.end, ms)
    ensures IsFindAll(t, p, [m] + ms)
  {
    assert ([m] + ms)[1..] == ms;
  }

  // ---------------------------------------------------------------------------
  // Properties of the matches

  /** Both greedy choices are fixed, so at most one match is reported at an index. */
  lemma PythonMatchUnique(t: string, p: nat, m1: Match, m2: Match)
    requires PythonMatch(t, p, m1) && PythonMatch(t, p, m2)
    ensures m1 == m2
  {
  }

  /** `.+` is greedy and stops only at a newline or at the end of the text, so a group
      keeps everything up to the end of its line, trailing spaces and `\r` included. */
  lemma GroupRunsToLineEnd(t: string, p: nat, m: Match)
    requires PythonMatch(t, p, m)
    ensures m.end == |t| || t[m.end] == '\n'
  {
    assert m.end < |t| && t[m.end] != '\n' ==> RegexMatch(t, p, m.capStart, m.end + 1);
  }

  /** Helper for GroupStartsWithSpace: by induction on `x`, every character after a
      group that starts with whitespace is a newline, since any other character would
      let the greedy `\s*` reach further. */
  lemma {:induction false} NewlinesAfterSpaceGroup(t: string, p: nat, m: Match, x: nat)
    requires PythonMatch(t, p, m)
    requires IsSpace(t[m.capStart])
    requires m.capStart < x < |t|
    ensures t[x] == '\n'
    decreases x
  {
    forall y | m.capStart < y < x ensures t[y] == '\n' {
      NewlinesAfterSpaceGroup(t, p, m, y);
    }
    assert AllSpace(t, p + |Keyword|, x);
    assert t[x] != '\n' ==> RegexMatch(t, p, x, x + 1);
  }

  /** The greedy `\s*` swallows the whitespace after the keyword, newlines included. So a
      group starts with whitespace only when nothing but whitespace follows the keyword
      to the end of the text: the group is then that single character, and only
      newlines come after it. */
  lemma GroupStartsWithSpace(t: string, p: nat, m: Match)
    requires PythonMatch(t, p, m)
    requires IsSpace(t[m.capStart])
    ensures m.end == m.capStart + 1
    ensures forall x :: m.end <= x < |t| ==> t[x] == '\n'
  {
    forall x | m.capStart < x < |t| ensures t[x] == '\n' {
      NewlinesAfterSpaceGroup(t, p, m, x);
    }
    if m.capStart + 1 < |t| {
      assert t[m.capStart + 1] == '\n';
    }
  }

  /** Where `findall` stands in the text: every reported match is the engine's match at
      its own start, the first lies at or after `p`, and each ends at or before the next
      one starts, so matches come left to right and never overlap. */
  lemma {:induction false} FindAllInOrder(t: string, p: nat, ms: seq<Match>)
    requires IsFindAll(t, p, ms)
    ensures forall i :: 0 <= i < |ms| ==> p <= ms[i].start && PythonMatch(t, ms[i].start, ms[i])
    ensures forall i, j :: 0 <= i < j < |ms| ==> ms[i].end <= ms[j].start
    decreases |ms|
  {
    if |ms| > 0 {
      FindAllInOrder(t, ms[0].end, ms[1..]);
      assert forall i :: 0 < i < |ms| ==> ms[i] == ms[1..][i - 1];
    }
  }

  /** The first reported match is the leftmost: no match can start between `p` and it,
      and when nothing is reported no match starts anywhere from `p` on. */
  lemma FirstMatchIsLeftmost(t: string, p: nat, ms: seq<Match>)
    requires IsFindAll(t, p, ms)
    ensures forall q: nat, k: nat, e: nat :: p <= q && RegexMatch(t, q, k, e) ==> |ms| > 0 && ms[0].start <= q
  {
    forall q: nat, k: nat, e: nat | p <= q && RegexMatch(t, q, k, e) ensures |ms| > 0 && ms[0].start <= q {
      assert !NoMatchAt(t, q);
    }
  }

  /** `findall` is determined by the text: two sequences that both satisfy its
      description are equal. */
  lemma {:induction false} FindAllUnique(t: string, p: nat, a: seq<Match>, b: seq<Match>)
    requires IsFindAll(t, p, a)
    requires IsFindAll(t, p, b)
    ensures a == b
    decreases |a|
  {
    FirstMatchIsLeftmost(t, p, a);
    FirstMatchIsLeftmost(t, p, b);
    if |a| > 0 && |b| > 0 {
      PythonMatchUnique(t, a[0].start, a[0], b[0]);
      FindAllUnique(t, a[0].end, a[1..], b[1..]);
      assert a == [a[0]] + a[1..];
      assert b == [b[0]] + b[1..];
    }
  }

  // ---------------------------------------------------------------------------
  // The strings findall returns

  /** The group texts of a sequence of matches, in order. */
  function Captures(t: string, ms: seq<Match>): seq<string>
    requires forall i :: 0 <= i < |ms| ==> ms[i].capStart <= ms[i].end <= |t|
  {
    seq(|ms|, i requires 0 <= i < |ms| => t[ms[i].capStart..ms[i].end])
  }

  /** `re.findall(r'Disallow:\s*(.+)', t, re.IGNORECASE)`: one group text per match. */
  function FindAll(t: string): (paths: seq<string>)
    ensures forall i :: 0 <= i < |paths| ==> |paths[i]| > 0 && '\n' !in paths[i]
  {
    var ms := ScanMatches(t, 0);
    FindAllInOrder(t, 0, ms);
    Captures(t, ms)
  }

  /** FindAll returns exactly the groups of the matches the declarative description
      fixes, one string per match, in order. */
  lemma FindAllIsCaptures(t: string, ms: seq<Match>)
    requires IsFindAll(t, 0, ms)
    ensures forall i :: 0 <= i < |ms| ==> ms[i].capStart < ms[i].end <= |t|
    ensures FindAll(t) == Captures(t, ms)
  {
    FindAllInOrder(t, 0, ms);
    FindAllUnique(t, 0, ScanMatches(t, 0), ms);
  }
}

=== FILE: robots.dfy ===
/** The program's logic around its network calls: dropping the header row of the
    snapshot index, extracting `Disallow:` paths from each archived robots.txt, folding
    them into one set, and writing that set one path per line. Each network response is
    a parameter: `None` stands for a request that raised, which the program logs and
    treats as an empty result. */
module WaybackRobots {
  import opened Wrappers
  import opened Text
  import opened Pattern

  /** The exact, case-sensitive text `getpaths` checks for before scanning. */
  const Guard: string := "Disallow:"

  /** One archived capture of robots.txt: a row of the index, after unpacking. */
  datatype Snapshot = Snapshot(timestamp: string, original: string)

  /** How a run ends, given that a host argument was supplied. */
  datatype Outcome =
    | NoSnapshots                    // "No snapshots to process.": exit 0, no file
    | MalformedSnapshot(index: nat)  // unpacking a row that is not a pair raises an uncaught ValueError
    | Saved(paths: set<string>)      // the set the program then tries to write

  // ---------------------------------------------------------------------------
  // robots(host): the snapshot index

  /** The rows of the index without its header row. A failed request (`None`) and an
      empty response both give no rows. */
  function ListSnapshots(response: Option<seq<seq<string>>>): (rows: seq<seq<string>>)
    ensures response.None? || |response.value| == 0 ==> rows == []
    ensures response.Some? && |response.value| > 0 ==>
              |rows| == |response.value| - 1 && forall i :: 0 <= i < |rows| ==> rows[i] == response.value[i + 1]
  {
    match response
    case None => []
    case Some(results) => if |results| == 0 then [] else results[1..]
  }

  /** Putting a header row in front of some rows and listing them gives the rows back. */
  lemma ListSnapshotsDropsHeader(header: seq<string>, rows: seq<seq<string>>)
    ensures ListSnapshots(Some([header] + rows)) == rows
  {
    assert ([header] + rows)[1..] == rows;
  }

  // ---------------------------------------------------------------------------
  // getpaths(snapshot)

  /** `timestamp, original_url = snapshot`: a row unpacks only when it holds exactly two
      strings. */
  function ToSnapshot(row: seq<string>): (s: Option<Snapshot>)
    ensures s.Some? <==> |row| == 2
  {
    if |row| == 2 then Some(Snapshot(row[0], row[1])) else None
  }

  /** A snapshot written back as an index row unpacks to itself. */
  lemma ToSnapshotRoundTrip(s: Snapshot)
    ensures ToSnapshot([s.timestamp, s.original]) == Some(s)
  {
  }

  /** All rows unpacked, or the index of the first row that does not unpack (the loop
      raises on that row before fetching it, and nothing is written). */
  function ParseSnapshots(rows: seq<seq<string>>): (r: Result<seq<Snapshot>, nat>)
    ensures r.Failure? <==> exists i :: 0 <= i < |rows| && |rows[i]| != 2
    ensures r.Failure? ==> r.error < |rows| && |rows[r.error]| != 2 && forall j :: 0 <= j < r.error ==> |rows[j]| == 2
    ensures r.Success? ==> |r.value| == |rows| && forall i :: 0 <= i < |rows| ==> ToSnapshot(rows[i]) == Some(r.value[i])
    decreases |rows|
  {
    if |rows| == 0 then Success([])
    else match ToSnapshot(rows[0])
      case None => Failure(0)
      case Some(s) =>
        match ParseSnapshots(rows[1..])
        case Failure(i) => Failure(i + 1)
        case Success(ss) => Success([s] + ss)
  }

  /** The paths of one fetched robots.txt: empty unless the exact text `Disallow:`
      occurs; then the findall of the case-insensitive pattern. */
  function ExtractPaths(text: string): (paths: seq<string>)
    ensures !Contains(text, Guard) ==> paths == []
    ensures Contains(text, Guard) ==> paths == FindAll(text)
    ensures forall i :: 0 <= i < |paths| ==> |paths[i]| > 0 && '\n' !in paths[i]
  {
    if Contains(text, Guard) then FindAll(text) else []
  }

  /** `getpaths` after its request: a failed fetch (`None`) yields no paths. */
  function GetPaths(fetched: Option<string>): (paths: seq<string>)
    ensures fetched.None? ==> paths == []
    ensures fetched.Some? ==> paths == ExtractPaths(fetched.value)
    ensures forall i :: 0 <= i < |paths| ==> |paths[i]| > 0 && '\n' !in paths[i]
  {
    match fetched
    case None => []
    case Some(text) => ExtractPaths(text)
  }

  /** Only a text holding a case variant of the keyword but not the exact text
      `Disallow:` (say, only `disallow:` lines) is treated differently from a plain
      findall: the guard is a shortcut everywhere else. */
  lemma GuardSkipsOnlyCaseVariants(text: string)
    ensures ExtractPaths(text) != FindAll(text) ==> !Contains(text, Guard) && exists p :: KeywordAt(text, p)
  {
    if forall p: nat :: !KeywordAt(text, p) {
      assert NoMatchFrom(text, 0);
      FindAllIsCaptures(text, []);
    }
  }

  /** The paths of a text are the groups of exactly the matches that `findall`'s
      description fixes, once the guard has passed. */
  lemma ExtractPathsAreGroups(text: string, ms: seq<Match>)
    requires IsFindAll(text, 0, ms)
    ensures forall i :: 0 <= i < |ms| ==> ms[i].capStart < ms[i].end <= |text|
    ensures Contains(text, Guard) ==> ExtractPaths(text) == Captures(text, ms)
    ensures !Contains(text, Guard) ==> ExtractPaths(text) == []
  {
    FindAllIsCaptures(text, ms);
  }

  // ---------------------------------------------------------------------------
  // __main__: the loop over the snapshots and the output file

  /** The paths of each snapshot, in the order the loop visits them. */
  function PathLists(snapshots: seq<Snapshot>, fetch: Snapshot -> Option<string>): (lists: seq<seq<string>>)
  {
    seq(|snapshots|, i requires 0 <= i < |snapshots| => GetPaths(fetch(snapshots[i])))
  }

  /** `unique_paths`, built by `if paths: unique_paths.update(paths)` over the lists in
      order: a path is in the set exactly when some list holds it. */
  function Accumulate(lists: seq<seq<string>>): (unique: set<string>)
    ensures forall x :: x in unique <==> exists i :: 0 <= i < |lists| && x in lists[i]
    decreases |lists|
  {
    if |lists| == 0 then {}
    else
      var before := Accumulate(lists[..|lists| - 1]);
      var paths := lists[|lists| - 1];
      assert forall i :: 0 <= i < |lists| - 1 ==> lists[..|lists| - 1][i] == lists[i];
      if |paths| > 0 then before + (set x | x in paths) else before
  }

  /** Lists that add nothing (a failed fetch, a robots.txt without directives) leave the
      set as it was, wherever they come in the loop. */
  lemma {:induction false} EmptyListsAddNothing(lists: seq<seq<string>>, i: nat)
    requires i <= |lists|
    ensures Accumulate(lists[..i] + [[]] + lists[i..]) == Accumulate(lists)
  {
    var longer := lists[..i] + [[]] + lists[i..];
    forall x ensures x in Accumulate(longer) <==> x in Accumulate(lists) {
      if x in Accumulate(longer) {
        var j :| 0 <= j < |longer| && x in longer[j];
        if j < i { assert longer[j] == lists[j]; } else { assert longer[j] == lists[j - 1]; }
      }
      if x in Accumulate(lists) {
        var j :| 0 <= j < |lists| && x in lists[j];
        if j < i { assert longer[j] == lists[j]; } else { assert longer[j + 1] == lists[j]; }
      }
    }
  }

  /** One run of the program for a host, given the index response and what each
      snapshot fetch returns. */
  function Run(listing: Option<seq<seq<string>>>, fetch: Snapshot -> Option<string>): (o: Outcome)
    ensures o.NoSnapshots? <==> |ListSnapshots(listing)| == 0
    ensures var rows := ListSnapshots(listing);
      o.MalformedSnapshot? ==>
        o.index < |rows| && |rows[o.index]| != 2 && forall j :: 0 <= j < o.index ==> |rows[j]| == 2
    ensures var rows := ListSnapshots(listing);
      o.Saved? ==>
        && (forall i :: 0 <= i < |rows| ==> |rows[i]| == 2)
        && forall x :: x in o.paths <==>
             exists i :: 0 <= i < |rows| && x in GetPaths(fetch(Snapshot(rows[i][0], rows[i][1])))
    ensures o.Saved? ==> forall x :: x in o.paths ==> |x| > 0 && '\n' !in x
  {
    var rows := ListSnapshots(listing);
    if |rows| == 0 then NoSnapshots
    else match ParseSnapshots(rows)
      case Failure(i) => MalformedSnapshot(i)
      case Success(snapshots) =>
        var lists := PathLists(snapshots, fetch);
        assert forall i :: 0 <= i < |rows| ==> lists[i] == GetPaths(fetch(Snapshot(rows[i][0], rows[i][1])));
        Saved(Accumulate(lists))
  }

  /** Each member of the set once, in some order: Python's iteration over a set. */
  predicate Enumerates(order: seq<string>, s: set<string>)
  {
    && (forall i, j :: 0 <= i < j < |order| ==> order[i] != order[j])
    && (forall x :: x in order ==> x in s)
    && (forall x :: x in s ==> x in order)
  }

  /** An iteration order for a set. Python's order depends on string hashing, so the
      model proves only that every member comes exactly once. */
  method Enumerate(s: set<string>) returns (order: seq<string>)
    ensures Enumerates(order, s)
    ensures |order| == |s|
  {
    order := [];
    var rest := s;
    while rest != {}
      invariant rest <= s
      invariant forall i, j :: 0 <= i < j < |order| ==> order[i] != order[j]
      invariant forall x :: x in order <==> x in s && x !in rest
      invariant |order| + |rest| == |s|
      decreases rest
    {
      var x :| x in rest;
      order := order + [x];
      rest := rest - {x};
    }
  }

  /** What `f.write('\n'.join(unique_paths))` puts in the file. Splitting it at newlines
      gives back the iteration order, hence the set, whenever the set is non-empty and
      no member holds a newline; an empty set gives an empty file. */
  function FileContents(paths: set<string>, order: seq<string>): (contents: string)
    requires Enumerates(order, paths)
    ensures |paths| == 0 ==> contents == ""
    ensures |paths| > 0 && (forall x :: x in paths ==> '\n' !in x) ==>
              Split(contents, '\n') == order && forall x :: x in Split(contents, '\n') <==> x in paths
  {
    if |paths| > 0 && (forall x :: x in paths ==> '\n' !in x) then
      SplitJoin(order, '\n');
      Join(order, '\n')
    else
      assert |order| > 0 ==> order[0] in paths;
      Join(order, '\n')
  }

  /** The text a run passes to `f.write` holds each path it found between `\n`
      separators: splitting that text at `\n` gives back exactly the accumulated set. */
  lemma SavedFileReadsBack(listing: Option<seq<seq<string>>>, fetch: Snapshot -> Option<string>, order: seq<string>)
    requires Run(listing, fetch).Saved?
    requires |Run(listing, fetch).paths| > 0
    requires Enumerates(order, Run(listing, fetch).paths)
    ensures forall x :: x in Split(FileContents(Run(listing, fetch).paths, order), '\n') <==> x in Run(listing, fetch).paths
  {
  }
}

=== FILE: scenarios.dfy ===
/** Concrete texts and runs, each worked through the scanner step by step: the
    behaviours the program shows on typical robots.txt content.

    Evaluating the scanner on a literal string makes the verifier unfold the recursive
    functions of module Pattern character by character, and a single large proof of
    that kind succeeds on some solver seeds and not on others. So each text's proof is
    cut into small steps. The `...Chars` lemmas state the characters at the indices a
    step needs. The `assert ... by {}` lines fix one intermediate value, such as where a
    whitespace run ends or what the scan returns from some index on, in a context of its
    own. */
module Scenarios {
  import opened Wrappers
  import opened Text
  import opened Pattern
  import opened WaybackRobots

  /** No match starts at an index whose character cannot begin the keyword. */
  lemma NoMatchAtOtherChar(t: string, p: nat)
    requires p < |t| && !EqualIgnoringCase(t[p], 'D')
    ensures MatchAt(t, p) == None
  {
    assert !EqualIgnoringCase(t[p + 0], Keyword[0]);
  }

  /** The engine reports the match that backtracking settles on. */
  lemma MatchFound(t: string, p: nat, k: nat, e: nat)
    requires KeywordAt(t, p)
    requires GroupStart(t, p + |Keyword|, SpaceRunEnd(t, p + |Keyword|)) == Some(k)
    requires LineEnd(t, k) == e
    ensures MatchAt(t, p) == Some(Match(p, k, e))
  {
  }

  // ---------------------------------------------------------------------------
  // The keyword matches in any case once the guard has passed

  const MixedCase: string := "Disallow: /a\nDISALLOW: /b"

  lemma MixedCaseKeywords()
    ensures KeywordAt(MixedCase, 0) && KeywordAt(MixedCase, 13)
  {
  }

  lemma MixedCaseSpan1()
    ensures GroupStart(MixedCase, 9, SpaceRunEnd(MixedCase, 9)) == Some(10)
    ensures LineEnd(MixedCase, 10) == 12
  {
    assert SpaceRunEnd(MixedCase, 9) == 10 by {}
  }

  lemma MixedCaseSpan2()
    ensures GroupStart(MixedCase, 22, SpaceRunEnd(MixedCase, 22)) == Some(23)
    ensures LineEnd(MixedCase, 23) == 25
  {
    assert SpaceRunEnd(MixedCase, 22) == 23 by {}
  }

  lemma MixedCaseScan()
    ensures ScanMatches(MixedCase, 0) == [Match(0, 10, 12), Match(13, 23, 25)]
  {
    MixedCaseKeywords();
    MixedCaseSpan1();
    MixedCaseSpan2();
    MatchFound(MixedCase, 0, 10, 12);
    MatchFound(MixedCase, 13, 23, 25);
    NoMatchAtOtherChar(MixedCase, 12);
    assert ScanMatches(MixedCase, 25) == [] by {}
    assert ScanMatches(MixedCase, 13) == [Match(13, 23, 25)] by {}
    assert ScanMatches(MixedCase, 12) == [Match(13, 23, 25)] by {}
  }

  lemma MixedCaseGroups()
    ensures Contains(MixedCase, Guard)
    ensures MixedCase[10..12] == "/a"
    ensures MixedCase[23..25] == "/b"
  {
    assert OccursAt(MixedCase, Guard, 0) by {}
  }

  /** `DISALLOW:` contributes its path as soon as the exact `Disallow:` occurs elsewhere. */
  lemma MixedCaseExtract()
    ensures ExtractPaths(MixedCase) == ["/a", "/b"]
  {
    MixedCaseScan();
    MixedCaseGroups();
  }

  // ---------------------------------------------------------------------------
  // The case-sensitive guard hides lower-case directives

  const LowerOnly: string := "disallow: /x"

  lemma LowerOnlyKeywords()
    ensures KeywordAt(LowerOnly, 0)
  {
  }

  lemma LowerOnlySpan()
    ensures GroupStart(LowerOnly, 9, SpaceRunEnd(LowerOnly, 9)) == Some(10)
    ensures LineEnd(LowerOnly, 10) == 12
  {
    assert SpaceRunEnd(LowerOnly, 9) == 10 by {}
  }

  lemma LowerOnlyScan()
    ensures ScanMatches(LowerOnly, 0) == [Match(0, 10, 12)]
  {
    LowerOnlyKeywords();
    LowerOnlySpan();
    MatchFound(LowerOnly, 0, 10, 12);
    assert ScanMatches(LowerOnly, 12) == [] by {}
  }

  lemma LowerOnlyChars()
    ensures |LowerOnly| == 12
    ensures LowerOnly[0] == 'd' && LowerOnly[1] == 'i' && LowerOnly[2] == 's' && LowerOnly[3] == 'a'
    ensures LowerOnly[10] == '/' && LowerOnly[11] == 'x'
  {
  }

  lemma LowerOnlyGroups()
    ensures !Contains(LowerOnly, Guard)
    ensures LowerOnly[10..12] == "/x"
  {
    LowerOnlyChars();
    forall i: nat ensures !OccursAt(LowerOnly, Guard, i) {
      if i <= 3 {
        assert LowerOnly[i + 0] != Guard[0];
      }
    }
    assert LowerOnly[10..12] == [LowerOnly[10], LowerOnly[11]];
  }

  /** The pattern alone would find `/x`, but the exact text `Disallow:` is missing, so
      `getpaths` returns nothing. */
  lemma LowerOnlyExtract()
    ensures FindAll(LowerOnly) == ["/x"]
    ensures ExtractPaths(LowerOnly) == []
  {
    LowerOnlyScan();
    LowerOnlyGroups();
  }

  // ---------------------------------------------------------------------------
  // Leading whitespace is consumed, trailing whitespace and carriage returns are kept

  const Padded: string := "Disallow: /a \r\nDisallow:   /s  "

  lemma PaddedKeywords()
    ensures KeywordAt(Padded, 0) && KeywordAt(Padded, 15)
  {
  }

  lemma PaddedChars1()
    ensures Padded[9] == ' ' && Padded[10] == '/' && Padded[11] == 'a' && Padded[12] == ' '
    ensures Padded[13] == '\r' && Padded[14] == '\n'
  {
  }

  lemma PaddedSpan1()
    ensures GroupStart(Padded, 9, SpaceRunEnd(Padded, 9)) == Some(10)
    ensures LineEnd(Padded, 10) == 14
  {
    PaddedChars1();
    assert SpaceRunEnd(Padded, 9) == 10;
    assert LineEnd(Padded, 12) == 14;
  }

  lemma PaddedSpan2()
    ensures GroupStart(Padded, 24, SpaceRunEnd(Padded, 24)) == Some(27)
    ensures LineEnd(Padded, 27) == 31
  {
    assert SpaceRunEnd(Padded, 24) == 27 by {}
  }

  lemma PaddedScan()
    ensures ScanMatches(Padded, 0) == [Match(0, 10, 14), Match(15, 27, 31)]
  {
    PaddedKeywords();
    PaddedSpan1();
    PaddedSpan2();
    MatchFound(Padded, 0, 10, 14);
    MatchFound(Padded, 15, 27, 31);
    NoMatchAtOtherChar(Padded, 14);
    assert ScanMatches(Padded, 31) == [] by {}
    assert ScanMatches(Padded, 15) == [Match(15, 27, 31)] by {}
    assert ScanMatches(Padded, 14) == [Match(15, 27, 31)] by {}
  }

  lemma PaddedChars2()
    ensures |Padded| == 31 && Padded[27] == '/' && Padded[28] == 's' && Padded[29] == ' ' && Padded[30] == ' '
  {
  }

  lemma PaddedGroups()
    ensures Contains(Padded, Guard)
    ensures Padded[10..14] == "/a \r"
    ensures Padded[27..31] == "/s  "
  {
    assert OccursAt(Padded, Guard, 0) by {}
    PaddedChars1();
    PaddedChars2();
    assert Padded[10..14] == [Padded[10], Padded[11], Padded[12], Padded[13]];
    assert Padded[27..31] == [Padded[27], Padded[28], Padded[29], Padded[30]];
  }

  /** The spaces between the keyword and the path are swallowed by `\s*`; the space and the
      `\r` after the path stay in the group, which ends just before the `\n`. */
  lemma PaddedExtract()
    ensures ExtractPaths(Padded) == ["/a \r", "/s  "]
  {
    PaddedScan();
    PaddedGroups();
  }

  // ---------------------------------------------------------------------------
  // An empty directive takes its path from a later line

  const EmptyDirective: string := "Disallow:\n\nAllow: /x"

  lemma EmptyDirectiveKeywords()
    ensures KeywordAt(EmptyDirective, 0)
  {
  }

  lemma EmptyDirectiveSpan()
    ensures GroupStart(EmptyDirective, 9, SpaceRunEnd(EmptyDirective, 9)) == Some(11)
    ensures LineEnd(EmptyDirective, 11) == 20
  {
    assert SpaceRunEnd(EmptyDirective, 9) == 11 by {}
  }

  lemma EmptyDirectiveScan()
    ensures ScanMatches(EmptyDirective, 0) == [Match(0, 11, 20)]
  {
    EmptyDirectiveKeywords();
    EmptyDirectiveSpan();
    MatchFound(EmptyDirective, 0, 11, 20);
    assert ScanMatches(EmptyDirective, 20) == [] by {}
  }

  lemma EmptyDirectiveGroups()
    ensures Contains(EmptyDirective, Guard)
    ensures EmptyDirective[11..20] == "Allow: /x"
  {
    assert OccursAt(EmptyDirective, Guard, 0) by {}
  }

  /** `\s*` runs over the newlines after an empty `Disallow:`, so the next line, here an
      `Allow:` directive, becomes the path. */
  lemma EmptyDirectiveExtract()
    ensures ExtractPaths(EmptyDirective) == ["Allow: /x"]
  {
    EmptyDirectiveScan();
    EmptyDirectiveGroups();
  }

  // ---------------------------------------------------------------------------
  // The path of an empty directive skips the indentation of the next line

  const IndentedNext: string := "Disallow:\n  /x"

  lemma IndentedNextKeywords()
    ensures KeywordAt(IndentedNext, 0)
  {
  }

  lemma IndentedNextSpan()
    ensures GroupStart(IndentedNext, 9, SpaceRunEnd(IndentedNext, 9)) == Some(12)
    ensures LineEnd(IndentedNext, 12) == 14
  {
    assert SpaceRunEnd(IndentedNext, 9) == 12 by {}
  }

  lemma IndentedNextScan()
    ensures ScanMatches(IndentedNext, 0) == [Match(0, 12, 14)]
  {
    IndentedNextKeywords();
    IndentedNextSpan();
    MatchFound(IndentedNext, 0, 12, 14);
    assert ScanMatches(IndentedNext, 14) == [] by {}
  }

  lemma IndentedNextGroups()
    ensures Contains(IndentedNext, Guard)
    ensures IndentedNext[12..14] == "/x"
  {
    assert OccursAt(IndentedNext, Guard, 0) by {}
  }

  /** `\s*` crosses the newline and the blanks that indent the next line, so the path
      starts at its first other character. */
  lemma IndentedNextExtract()
    ensures ExtractPaths(IndentedNext) == ["/x"]
  {
    IndentedNextScan();
    IndentedNextGroups();
  }

  // ---------------------------------------------------------------------------
  // Only whitespace after the last keyword

  const BlankLast: string := "Disallow: \n"

  lemma BlankLastKeywords()
    ensures KeywordAt(BlankLast, 0)
  {
  }

  lemma BlankLastSpan()
    ensures GroupStart(BlankLast, 9, SpaceRunEnd(BlankLast, 9)) == Some(9)
    ensures LineEnd(BlankLast, 9) == 10
  {
    assert SpaceRunEnd(BlankLast, 9) == 11 by {}
  }

  lemma BlankLastScan()
    ensures ScanMatches(BlankLast, 0) == [Match(0, 9, 10)]
  {
    BlankLastKeywords();
    BlankLastSpan();
    MatchFound(BlankLast, 0, 9, 10);
    NoMatchAtOtherChar(BlankLast, 10);
    assert ScanMatches(BlankLast, 11) == [] by {}
    assert ScanMatches(BlankLast, 10) == [] by {}
  }

  lemma BlankLastGroups()
    ensures Contains(BlankLast, Guard)
    ensures BlankLast[9..10] == " "
  {
    assert OccursAt(BlankLast, Guard, 0) by {}
  }

  /** Backtracking gives the space back to `.+`, so the path is a single space. */
  lemma BlankLastExtract()
    ensures ExtractPaths(BlankLast) == [" "]
  {
    BlankLastScan();
    BlankLastGroups();
  }

  // ---------------------------------------------------------------------------
  // A single directive

  const OnePath: string := "Disallow: /a"

  lemma OnePathKeywords()
    ensures KeywordAt(OnePath, 0)
  {
  }

  lemma OnePathSpan()
    ensures GroupStart(OnePath, 9, SpaceRunEnd(OnePath, 9)) == Some(10)
    ensures LineEnd(OnePath, 10) == 12
  {
    assert SpaceRunEnd(OnePath, 9) == 10 by {}
  }

  lemma OnePathScan()
    ensures ScanMatches(OnePath, 0) == [Match(0, 10, 12)]
  {
    OnePathKeywords();
    OnePathSpan();
    MatchFound(OnePath, 0, 10, 12);
    assert ScanMatches(OnePath, 12) == [] by {}
  }

  lemma OnePathGroups()
    ensures Contains(OnePath, Guard)
    ensures OnePath[10..12] == "/a"
  {
    assert OccursAt(OnePath, Guard, 0) by {}
  }

  /** A single directive yields its path. */
  lemma OnePathExtract()
    ensures ExtractPaths(OnePath) == ["/a"]
  {
    OnePathScan();
    OnePathGroups();
  }

  // ---------------------------------------------------------------------------
  // A whole run: three snapshots, the second fetch fails

  const ThreeSnapshots: seq<seq<string>> :=
    [["timestamp", "original"], ["1", "example.com/robots.txt"], ["2", "example.com/robots.txt"], ["3", "example.com/robots.txt"]]

  /** The first capture lists `/a`, the second cannot be fetched, the third lists `/a`
      and `/b`. */
  function ThreeFetches(s: Snapshot): Option<string>
  {
    if s.timestamp == "1" then Some(OnePath)
    else if s.timestamp == "3" then Some(MixedCase)
    else None
  }

  lemma ThreeSnapshotsPaths()
    ensures ListSnapshots(Some(ThreeSnapshots)) == ThreeSnapshots[1..]
    ensures GetPaths(ThreeFetches(Snapshot("1", "example.com/robots.txt"))) == ["/a"]
    ensures GetPaths(ThreeFetches(Snapshot("2", "example.com/robots.txt"))) == []
    ensures GetPaths(ThreeFetches(Snapshot("3", "example.com/robots.txt"))) == ["/a", "/b"]
  {
    OnePathExtract();
    MixedCaseExtract();
  }

  lemma ThreeSnapshotsParsed()
    ensures ParseSnapshots(ThreeSnapshots[1..]) ==
              Success([Snapshot("1", "example.com/robots.txt"), Snapshot("2", "example.com/robots.txt"),
                       Snapshot("3", "example.com/robots.txt")])
  {
    var rows := ThreeSnapshots[1..];
    var r := ParseSnapshots(rows);
    assert |rows[0]| == 2 && |rows[1]| == 2 && |rows[2]| == 2 by {}
    assert r.Success? by {}
    assert ToSnapshot(rows[0]) == Some(r.value[0]) by {}
    assert ToSnapshot(rows[1]) == Some(r.value[1]) by {}
    assert ToSnapshot(rows[2]) == Some(r.value[2]) by {}
    assert r.value[0] == Snapshot("1", "example.com/robots.txt") by {}
    assert r.value[1] == Snapshot("2", "example.com/robots.txt") by {}
    assert r.value[2] == Snapshot("3", "example.com/robots.txt") by {}
    assert |r.value| == 3 by {}
    assert r.value == [Snapshot("1", "example.com/robots.txt"), Snapshot("2", "example.com/robots.txt"),
                       Snapshot("3", "example.com/robots.txt")];
  }

  lemma ThreeSnapshotsUnion()
    ensures Accumulate([["/a"], [], ["/a", "/b"]]) == {"/a", "/b"}
  {
    var lists: seq<seq<string>> := [["/a"], [], ["/a", "/b"]];
    assert lists[..2][..1][..0] == [] by {}
  }

  /** The failed fetch costs nothing, and `/a`, found twice, is saved once. */
  lemma ThreeSnapshotsRun()
    ensures Run(Some(ThreeSnapshots), ThreeFetches) == Saved({"/a", "/b"})
  {
    ThreeSnapshotsPaths();
    ThreeSnapshotsParsed();
    ThreeSnapshotsUnion();
    var snapshots := [Snapshot("1", "example.com/robots.txt"), Snapshot("2", "example.com/robots.txt"),
                      Snapshot("3", "example.com/robots.txt")];
    assert PathLists(snapshots, ThreeFetches) == [["/a"], [], ["/a", "/b"]] by {}
  }

  /** An index that holds only its header row means there is nothing to process. */
  lemma HeaderOnlyRun(fetch: Snapshot -> Option<string>)
    ensures Run(Some([["timestamp", "original"]]), fetch) == NoSnapshots
    ensures Run(None, fetch) == NoSnapshots
  {
  }

  /** A row that is not a (timestamp, original) pair stops the loop before any file is
      written, even after rows that fetched fine. */
  lemma ShortRowRun(fetch: Snapshot -> Option<string>)
    ensures Run(Some([["timestamp", "original"], ["1", "example.com/robots.txt"], ["2"]]), fetch) == MalformedSnapshot(1)
  {
    var rows: seq<seq<string>> := [["1", "example.com/robots.txt"], ["2"]];
    assert ListSnapshots(Some([["timestamp", "original"]] + rows)) == rows by {
      ListSnapshotsDropsHeader(["timestamp", "original"], rows);
    }
    assert |rows[0]| == 2 && |rows[1]| == 1;
    assert ParseSnapshots(rows[1..]) == Failure(0);
  }
}

=== FILE: text.dfy ===
/** Character classes and string helpers used by the pattern scanner and by the output file. */
module Text {

  /** Python 3's whitespace for `str` patterns (`\s`, `str.isspace`): the ASCII controls
      9 to 13 and 28 to 31, the space, and the Unicode separators. */
  predicate IsSpace(c: char)
  {
    || ('\t' <= c <= '\r')
    || ('\U{1C}' <= c <= ' ')
    || c == '\U{85}' || c == '\U{A0}' || c == '\U{1680}'
    || ('\U{2000}' <= c <= '\U{200A}')
    || c == '\U{2028}' || c == '\U{2029}' || c == '\U{202F}' || c == '\U{205F}'
    || c == '\U{3000}'
  }

  /** ASCII lower-casing: the letters A to Z map to a to z, every other character to itself. */
  function AsciiLower(c: char): char
  {
    if 'A' <= c <= 'Z' then (c as int + 32) as char else c
  }

  /** The two characters are equal once ASCII letters are lower-cased. */
  predicate EqualIgnoringCase(a: char, b: char)
  {
    AsciiLower(a) == AsciiLower(b)
  }

  /** `w` occurs in `t` at index `i`, character for character. */
  predicate OccursAt(t: string, w: string, i: nat)
  {
    i + |w| <= |t| && forall j :: 0 <= j < |w| ==> t[i + j] == w[j]
  }

  /** `w` occurs in `t` at index `i` when ASCII case is ignored. */
  predicate OccursFoldedAt(t: string, w: string, i: nat)
  {
    i + |w| <= |t| && forall j :: 0 <= j < |w| ==> EqualIgnoringCase(t[i + j], w[j])
  }

  /** Python's `w in t` for strings, searching from index `from` on. */
  predicate ContainsFrom(t: string, w: string, from: nat)
    ensures ContainsFrom(t, w, from) <==> exists i :: from <= i && OccursAt(t, w, i)
    decreases |t| + 1 - from
  {
    if from > |t| then false
    else if OccursAt(t, w, from) then true
    else ContainsFrom(t, w, from + 1)
  }

  predicate Contains(t: string, w: string)
  {
    ContainsFrom(t, w, 0)
  }

  /** The index of the first `c` in `s`, or `|s|` when there is none. */
  function IndexOf(s: string, c: char): (i: nat)
    ensures i <= |s|
    ensures forall j :: 0 <= j < i ==> s[j] != c
    ensures i < |s| ==> s[i] == c
  {
    if |s| == 0 || s[0] == c then 0 else 1 + IndexOf(s[1..], c)
  }

  /** Python's `sep.join(parts)` for a one-character separator: no pieces give the empty
      string, and the first piece is followed by a separator exactly when more pieces come. */
  function Join(parts: seq<string>, sep: char): (s: string)
    ensures |parts| == 0 ==> s == ""
    ensures |parts| == 1 ==> s == parts[0]
    ensures |parts| > 1 ==> |parts[0]| < |s| && s[|parts[0]|] == sep
  {
    if |parts| == 0 then ""
    else if |parts| == 1 then parts[0]
    else parts[0] + [sep] + Join(parts[1..], sep)
  }

  /** Python's `s.split(sep)` for a one-character separator: the pieces between separators. */
  function Split(s: string, sep: char): (parts: seq<string>)
    ensures |parts| > 0
    ensures forall i :: 0 <= i < |parts| ==> sep !in parts[i]
    decreases |s|
  {
    var i := IndexOf(s, sep);
    if i == |s| then [s] else [s[..i]] + Split(s[i + 1..], sep)
  }

  /** Splitting a piece free of separators, followed by a separator and more text,
      yields that piece first. */
  lemma SplitAfterPiece(a: string, sep: char, b: string)
    requires sep !in a
    ensures Split(a + [sep] + b, sep) == [a] + Split(b, sep)
  {
    var s := a + [sep] + b;
    assert s[|a|] == sep;
    assert IndexOf(s, sep) == |a| by {
      forall j | 0 <= j < |a| ensures s[j] != sep {
        assert s[j] == a[j];
      }
    }
    assert s[..|a|] == a;
    assert s[|a| + 1..] == b;
  }

  /** Splitting the join of separator-free pieces gives the pieces back. */
  lemma {:induction false} SplitJoin(parts: seq<string>, sep: char)
    requires |parts| > 0
    requires forall i :: 0 <= i < |parts| ==> sep !in parts[i]
    ensures Split(Join(parts, sep), sep) == parts
    decreases |parts|
  {
    if |parts| == 1 {
      assert IndexOf(parts[0], sep) == |parts[0]|;
    } else {
      SplitJoin(parts[1..], sep);
      SplitAfterPiece(parts[0], sep, Join(parts[1..], sep));
      assert [parts[0]] + parts[1..] == parts;
    }
  }

  /** Joining a piece in front of a non-empty list puts one separator between them. */
  lemma JoinCons(head: string, rest: seq<string>, sep: char)
    requires |rest| > 0
    ensures Join([head] + rest, sep) == head + [sep] + Join(rest, sep)
  {
    assert ([head] + rest)[1..] == rest;
  }

  /** Joining the pieces of a split gives the original string back. */
  lemma {:induction false} JoinSplit(s: string, sep: char)
    ensures Join(Split(s, sep), sep) == s
    decreases |s|
  {
    var i := IndexOf(s, sep);
    if i < |s| {
      var head, tail := s[..i], s[i + 1..];
      JoinSplit(tail, sep);
      JoinCons(head, Split(tail, sep), sep);
      assert s == head + [sep] + tail;
    }
  }
}

=== FILE: wrappers.dfy ===
/** Failure-carrying values shared by the modules of this model. */
module Wrappers {

  /** A value that may be missing: a failed fetch, a capture that cannot start anywhere. */
  datatype Option<+T> = None | Some(value: T)

  /** A computed value, or the error that stopped the computation. */
  datatype Result<+T, +E> = Success(value: T) | Failure(error: E)
}
